=== FILE: README.md ===
# Drooff fire+ protocol layer

This project models the protocol layer of the Home Assistant integration for the Drooff fire+ stove combustion controller (`custom_components/drooff_fireplus/api.py`). It has three parts.

- **The response decoder** (`FireplusResponse`) takes the panel payload and the configuration payload. It strips two leading characters and one trailing character from each, then cuts each at the two-character escape backslash-`n`. It reads the protocol version from the text before the first `.` of the first configuration field. It then takes typed readings from fixed positions. Version 1 uses one layout; every other version uses the version-2 layout. A missing position or an unreadable number makes the whole decode fail with `FireplusApiClientInvalidResponseError`.
- **The lookup tables**:
  - the LED status token to the operation status;
  - the error code to the error;
  - per version, the burn-rate level to its ("Betrieb", "Leistung") pair, with the inverse table built by flipping it.
- **The settings encoder** is the dictionary `async_update_settings` posts. Omitted arguments come from a freshly read snapshot. The key set depends on the version. Version 2 adds the change token `CNT = (count + 1) % 100`.

Modules:
- `Wrappers` holds Option and Result.
- `Strings` models Python's slicing, `find`, `split` and `join`.
- `Integers` models `int()` on decimal text and its inverse `str()`.
- `Tables` models a dict built from a literal, or flipped by a comprehension.
- `Lookups` holds the translation tables.
- `Response` is the decoder.
- `Settings` is the encoder.

Two consequences of the code that a reader might not expect:
- Every version other than 1 takes the version-2 path (`api.py:177-180`). The model does not reject unknown versions either.
- Version 1 reads panel[12] (`api.py:195`), so a version-1 panel list of only 12 fields fails with `InvalidResponseError` (`Response.ShortPayloadIsInvalid`). `Response.ExampleVersion1Poll` decodes a 13-field version-1 poll.

## Model

| member | source | states |
|---|---|---|
| `Strings.Split` | custom_components/drooff_fireplus/api.py:156-157 | `str.split` on a non-empty separator returns at least one part (so an empty body gives one empty field), the parts join back to the input, and no part contains the separator |
| `Strings.SplitJoin` | custom_components/drooff_fireplus/api.py:156-157 | for a separator whose occurrences cannot overlap, splitting a join of separator-free parts returns exactly those parts (the other half of the split/join round trip) |
| `Strings.Find` | custom_components/drooff_fireplus/api.py:156-157 | the cut points of `split` are the leftmost occurrences of the separator: the one found is an occurrence, none lies before it, and "not found" means there is none |
| `Response.Body` | custom_components/drooff_fireplus/api.py:156-157 | `payload[2:-1]` is the payload between its two-character prefix and last character, and is empty for payloads shorter than three characters |
| `Response.Fields` | custom_components/drooff_fireplus/api.py:156-157 | the field list is never empty, joins back to the stripped body, and no field contains the backslash-`n` escape |
| `Response.FieldsOfFramedPayload` | custom_components/drooff_fireplus/api.py:156-157 | framing any list of escape-free fields with a two-character prefix and a one-character suffix and decoding the fields gives back the same list |
| `Response.VersionToken` | custom_components/drooff_fireplus/api.py:159 | the version token is the whole first configuration field when it has no `.`, and otherwise the text before its first `.`, with no `.` in the token |
| `Integers.ParseInt` | custom_components/drooff_fireplus/api.py:159-168 | `int(text)` succeeds exactly on an optional sign followed by decimal digits (else the ValueError case), and the sign determines the sign of the result |
| `Integers.ParseFormatRoundTrip` | custom_components/drooff_fireplus/api.py:162-168 | every integer written in decimal is read back as the same integer |
| `Integers.ParseIntValue` | custom_components/drooff_fireplus/api.py:159-168 | the value `int(text)` returns is the integer whose `str()` is the literal with its `+` sign and leading zeros dropped and `-0` read as `0`; with the round trip this fixes the value of every accepted literal |
| `Integers.NonCanonicalLiterals` | custom_components/drooff_fireplus/api.py:159-168 | `int("050") == 50`, `int("+5") == 5` and `int("-0") == 0` |
| `Integers.FormatInt` | custom_components/drooff_fireplus/api.py:94 | `str(n)` starts with a minus sign exactly when n is negative, never with a plus sign, and its digits start with `0` only for zero |
| `Strings.SliceBound` | custom_components/drooff_fireplus/api.py:156-157 | a slice bound inside 0..n is kept, a negative bound down to -n counts back from the end, a bound above n becomes n and a bound below -n becomes 0 |
| `Strings.Slice` | custom_components/drooff_fireplus/api.py:156-157 | `s[a:b]` is never longer than `s`; it is `s[a..b]` for in-range bounds, `s[a..len+b]` for a negative stop, `s[len+a..b]` for a negative start, and empty when a non-negative stop is at or before a non-negative start or a negative stop lands at or before the start |
| `Response.Field` | custom_components/drooff_fireplus/api.py:155-186 | reading a position succeeds exactly when it exists and gives the field there; a missing position is the IndexError that becomes InvalidResponseError |
| `Response.IntField` | custom_components/drooff_fireplus/api.py:159-175 | `int(fields[i])` succeeds exactly when the position exists and holds an integer literal, and fails with InvalidResponseError otherwise |
| `Response.FlagField` | custom_components/drooff_fireplus/api.py:160 | `fields[i] == "1"` succeeds exactly when the position exists, is true exactly for the text `1`, and fails with InvalidResponseError otherwise |
| `Response.FloatField` | custom_components/drooff_fireplus/api.py:163-164 | `float(fields[i])` succeeds exactly when the position exists and `float` accepts it, giving `float`'s value, and fails with InvalidResponseError otherwise |
| `Tables.Flip` | custom_components/drooff_fireplus/api.py:255 | for a literal without repeated keys, the comprehension has one entry per entry of the dict, each with key and value swapped, in the same order |
| `Tables.ToMap` | custom_components/drooff_fireplus/api.py:239-243 | a dict built from entries has exactly the entries' keys, every value comes from an entry with that key, and a later entry with the same key overwrites an earlier one |
| `Tables.FlipInverts` | custom_components/drooff_fireplus/api.py:254-259 | when keys and values are both distinct, the `{value: key ...}` comprehension is the exact inverse of the dict in both directions |
| `Lookups.BurnRateTablesWellFormed` | custom_components/drooff_fireplus/api.py:238-243 | the version-1 table lists levels 1..7 and the version-2 table levels 1..6, each level once, with no pair listed twice, so both derived inverse tables are well defined |
| `Lookups.OperationStatusOf` | custom_components/drooff_fireplus/api.py:221-235 | the status lookup is total; it yields ERROR exactly for "Rot blinkt"; every known status is returned only for the token that names it |
| `Lookups.LedToken` | custom_components/drooff_fireplus/api.py:221-231 | every status except UNKNOWN has an LED token that the status table maps back to that status, so the table covers all eight known statuses |
| `Lookups.UnknownLedStatus` | custom_components/drooff_fireplus/api.py:234-235 | a token maps to UNKNOWN exactly when it is none of the eight known tokens |
| `Lookups.ErrorOf` | custom_components/drooff_fireplus/api.py:285-302 | only code 0 means NONE; exactly codes 1, 7 and 8 mean TEMPERATURE_SENSOR_DEFECTIVE; exactly the codes outside 0..10 mean UNKNOWN |
| `Lookups.ErrorCodes` | custom_components/drooff_fireplus/api.py:285-302 | for every known error, the lookup returns it exactly for the codes listed for that error |
| `Lookups.ValuesForBurnRateV1` | custom_components/drooff_fireplus/api.py:246-247 | a version-1 level 1..7 encodes as its table pair; any other level encodes as (1, 4) |
| `Lookups.ValuesForBurnRateV2` | custom_components/drooff_fireplus/api.py:250-251 | a version-2 level 1..6 encodes as its table pair; any other level encodes as (2, 4) |
| `Lookups.BurnRateV1` | custom_components/drooff_fireplus/api.py:262-263 | a decoded version-1 burn rate always lies in 1..7; a listed pair decodes to the level whose pair it is; an unlisted pair decodes to 1 |
| `Lookups.BurnRateV2` | custom_components/drooff_fireplus/api.py:266-267 | a decoded version-2 burn rate always lies in 1..6; a listed pair decodes to the level whose pair it is; an unlisted pair decodes to 1 |
| `Lookups.BurnRateRoundTripV1` | custom_components/drooff_fireplus/api.py:239-263 | `_get_burn_rate_v1(*_get_values_for_burn_rate_v1(l)) == l` for every l in 1..7 |
| `Lookups.BurnRateRoundTripV2` | custom_components/drooff_fireplus/api.py:243-267 | `_get_burn_rate_v2(*_get_values_for_burn_rate_v2(l)) == l` for every l in 1..6 |
| `Lookups.PairRoundTripV1` | custom_components/drooff_fireplus/api.py:246-263 | decoding a pair and re-encoding the level gives the same pair exactly when the pair is in the version-1 table, and gives level 1's pair otherwise |
| `Lookups.PairRoundTripV2` | custom_components/drooff_fireplus/api.py:250-267 | decoding a pair and re-encoding the level gives the same pair exactly when the pair is in the version-2 table, and gives level 1's pair otherwise |
| `Lookups.BurnRateFallbacksAgree` | custom_components/drooff_fireplus/api.py:246-251 | the encoding fallback of each version is level 1's pair, which is also the level the decoding fallback returns |
| `Response.Decode` | custom_components/drooff_fireplus/api.py:153-186 | every successful decode has version-consistent nullability, a burn rate within the version's table, a non-zero progress denominator, and an error derived from the unchanged raw error code |
| `Response.DecodeFields` | custom_components/drooff_fireplus/api.py:159-186 | the same invariants for the decode of already split field lists |
| `Response.DecodeCommon` | custom_components/drooff_fireplus/api.py:159-175 | the version-independent readings fail only with InvalidResponseError, and keep the raw error code next to its translated error |
| `Response.DecodeVersion1` | custom_components/drooff_fireplus/api.py:188-195 | version-1 readings set `led` and leave volume, count and operating time unset, with a burn rate in 1..7 |
| `Response.DecodeVersion2` | custom_components/drooff_fireplus/api.py:197-204 | version-2 readings set volume, count and operating time and leave `led` unset, with a burn rate in 1..6 |
| `Response.DecodeCommonOutcome` | custom_components/drooff_fireplus/api.py:159-175 | the version-independent readings succeed exactly when the version, positions 1 and 4-9 of the panel and 0-4 of the configuration exist and hold numbers wherever numbers are read |
| `Response.DecodeVersion1Outcome` | custom_components/drooff_fireplus/api.py:188-195 | the version-1 part fails with InvalidResponseError exactly when a position it reads is missing or not an integer, and with ZeroDivisionError exactly when all are readable and configuration[6] is 0 |
| `Response.DecodeVersion2Outcome` | custom_components/drooff_fireplus/api.py:197-204 | the version-2 part fails with InvalidResponseError exactly when a position it reads is missing or not an integer, and with ZeroDivisionError exactly when all are readable and configuration[6] is 0 |
| `Response.DecodableByParts` | custom_components/drooff_fireplus/api.py:155-204 | the per-version position table (lengths, integer positions, float positions) describes exactly what the common and the version-specific parts read |
| `Response.DecodeAllOrNothing` | custom_components/drooff_fireplus/api.py:155-186 | decoding fails with InvalidResponseError exactly when the position table is not met, raises ZeroDivisionError exactly when it is met but the progress denominator is 0, and yields a whole snapshot otherwise |
| `Response.ShortPayloadIsInvalid` | custom_components/drooff_fireplus/api.py:155-204 | fewer than 13 panel or 7 configuration fields, or fewer than 17 and 8 under a version other than 1, gives InvalidResponseError |
| `Response.DecodeCommonLayout` | custom_components/drooff_fireplus/api.py:159-175 | the shared rows of the decoding table. The version comes from configuration[0]. Panel 1 gives web controls (true exactly for "1"), 4 brightness, 5 temperature, 6 air slider, 7 chimney draught, 8 operation status and 9 the error code. Configuration 1 gives the maximum temperature, 3 the serial number and 4 draught availability |
| `Response.DecodeVersion1Layout` | custom_components/drooff_fireplus/api.py:177-195 | under version 1: `led` from panel[10]; no volume, count or operating time; ember burndown from panel[11]; progress panel[12] over configuration[6]; burn rate from panel[2..3] through the version-1 table |
| `Response.DecodeVersion2Layout` | custom_components/drooff_fireplus/api.py:177-204 | under every other version: volume from panel[12], count from panel[16], operating time from configuration[7], no `led`; ember burndown from panel[10]; progress panel[11] over configuration[6]; burn rate through the version-2 table |
| `Response.ExampleVersion1Fields` | custom_components/drooff_fireplus/api.py:153-195 | a concrete 13-field version-1 panel list and 7-field configuration list decode to the expected snapshot |
| `Response.ExampleVersion1Poll` | custom_components/drooff_fireplus/api.py:153-195 | the same poll decoded from framed, escape-separated raw response texts |
| `Response.Percent` | custom_components/drooff_fireplus/api.py:195 | the heating progress percentage times the denominator equals the numerator times 100 |
| `Settings.IntOfBool` | custom_components/drooff_fireplus/api.py:75-77 | `int(b)` of a flag is 0 or 1, and 1 exactly when the flag is set |
| `Settings.NextCount` | custom_components/drooff_fireplus/api.py:91 | `(count + 1) % 100` lies in 0..99, counts up from 0..98 and wraps 99 to 0, and never equals the count it was computed from |
| `Settings.SettingsFields` | custom_components/drooff_fireplus/api.py:54-92 | version 1 posts exactly {Betrieb, Leistung, Helligkeit, Bedienung, LED, AB}; other versions post exactly {Betrieb, Leistung, Helligkeit, Bedienung, AB, Lautstaerke, CNT}. Each omitted argument takes the snapshot's value. Bedienung is always `int(web_controls_shown)`. CNT is the next count |
| `Settings.WrittenBurnRateReadsBack` | custom_components/drooff_fireplus/api.py:66-86 | the posted Betrieb/Leistung pair decodes through the same version's table as the requested level when it is in range, and as level 1 otherwise |
| `Settings.FlagRoundTrip` | custom_components/drooff_fireplus/api.py:75-77 | a flag posted as `int(b)` and echoed back as text reads as the same flag under the decoder's `== "1"` test |
| `Settings.KeepAllRewritesSnapshot` | custom_components/drooff_fireplus/api.py:54-92 | with no arguments the update re-posts the snapshot: brightness, volume, web controls, ember burndown and LED read back unchanged, and the pair decodes to the current burn rate. Only CNT changes |
| `Settings.IgnoredArguments` | custom_components/drooff_fireplus/api.py:66-92 | the version-1 fields do not depend on the `volume` argument; the other versions' fields do not depend on `led` |
| `Settings.DecodedSnapshotIsWritable` | custom_components/drooff_fireplus/api.py:64-66 | every snapshot the decoder returns meets the encoder's precondition and yields the version's key set |

## Left out

- Transport (`_api_wrapper`, `async_get_data`, the final POST; `api.py:41-52`, `api.py:94-127`): aiohttp requests, the 10-second timeout, `raise_for_status` and the mapping of failures to `FireplusApiClientCommunicationError` and `FireplusApiClientError` are network I/O. Only those two error classes come from it, so neither appears in the model. The snapshot `async_update_settings` re-reads at `api.py:64` is a parameter of `Settings.SettingsFields`.
- `Response.Decode`: Python's `float()` on the air slider and chimney draught is the parameter `parseFloat`. The model keeps its failure path (a ValueError becomes InvalidResponseError) but not its syntax or rounding, nor the special values `nan` and `inf` that `float()` accepts and that no `real` can hold.
- `Response.Percent`: `heating_progress` is kept as the exact pair (numerator, denominator). Float division and rounding are not modelled.
- The zero denominator is modelled as its own outcome, `ZeroDivisionError`, because the `except (IndexError, ValueError)` at `api.py:182` does not catch it. It is not reported as InvalidResponseError.
- `Integers.ParseInt`: accepts only an optional sign followed by ASCII digits. It does not accept the surrounding whitespace, `_` digit separators or non-ASCII digits that Python's `int()` also takes. It also has no length limit. Python 3.11 and later raise ValueError for decimal text of more than 4300 digits by default, and the decoder would report that as InvalidResponseError.
- `Response.DecodeAllOrNothing`: calls a decode a success in two cases where Python fails. First, an integer field of more than 4300 digits is rejected by Python 3.11 and later (see `Integers.ParseInt`). Second, a progress quotient `int(a) / int(b)` beyond the float range raises OverflowError (`api.py:195`, `api.py:204`). The `except` at `api.py:182` does not catch it, so it leaves the constructor as it is. Progress is kept as an exact pair (see `Response.Percent`), so neither case is modelled.
- `Settings.SettingsFields`: requires a version-consistent snapshot, which every decoded snapshot is (`Settings.DecodedSnapshotIsWritable`). An inconsistent snapshot is not modelled. On one, Python behaves as follows:
  - A version-1 snapshot without `led` raises TypeError from `int(None)` only when the `led` argument is omitted (`api.py:76`).
  - Any other version without `count` raises TypeError from `None + 1` (`api.py:91`).
  - Any other version with `count` but without `volume`, called without a `volume` argument, posts `"Lautstaerke": None` and raises nothing (`api.py:90`).
  - Extra fields change nothing the encoder reads: `volume` or `count` on a version-1 snapshot, or `led` on another version. Neither does a missing `operating_time`, which the encoder never reads. Such a snapshot is encoded like a consistent one.
- Home Assistant host glue (`number.py`, `sensor.py`, `binary_sensor.py`, `switch.py`, `config_flow.py`, `coordinator.py`, `entity.py`, `data.py`, `const.py`): entity wrappers, UI forms, scheduling and constants, with no protocol logic.

=== FILE: integers.dfy ===
/** Python's `int(text)` on the decimal fields of the payloads, as an optional sign
    followed by one or more ASCII digits, together with the decimal rendering that
    `int` inverts. The further syntax Python's `int` accepts (surrounding whitespace,
    `_` between digits, non-ASCII digits) is not modelled. */
module Integers {
  import opened Wrappers

  predicate IsDigit(c: char)
  {
    '0' <= c <= '9'
  }

  predicate AllDigits(s: string)
  {
    forall i :: 0 <= i < |s| ==> IsDigit(s[i])
  }

  function DigitValue(c: char): (d: nat)
    requires IsDigit(c)
    ensures d < 10
  {
    c as int - '0' as int
  }

  function DigitChar(d: nat): (c: char)
    requires d < 10
    ensures IsDigit(c) && DigitValue(c) == d
  {
    ('0' as int + d) as char
  }

  /** The value of a string of decimal digits, most significant first. */
  function DigitsValue(s: string): nat
    requires AllDigits(s)
  {
    if |s| == 0 then 0
    else 10 * DigitsValue(s[..|s| - 1]) + DigitValue(s[|s| - 1])
  }

  /** The syntax this model accepts for `int(text)`. */
  predicate IsIntLiteral(s: string)
  {
    if |s| > 0 && (s[0] == '+' || s[0] == '-') then |s| > 1 && AllDigits(s[1..])
    else |s| > 0 && AllDigits(s)
  }

  /** `int(text)`; `None` stands for the `ValueError` Python raises. */
  function ParseInt(s: string): (r: Option<int>)
    ensures r.Some? <==> IsIntLiteral(s)
    ensures r.Some? && s[0] == '-' ==> r.value <= 0
    ensures r.Some? && s[0] != '-' ==> r.value >= 0
  {
    if |s| > 0 && (s[0] == '+' || s[0] == '-') then
      if |s| > 1 && AllDigits(s[1..]) then
        var magnitude: int := DigitsValue(s[1..]);
        Some(if s[0] == '-' then -magnitude else magnitude)
      else None
    else if |s| > 0 && AllDigits(s) then Some(DigitsValue(s))
    else None
  }

  /** Shortest decimal digits of a natural number: only zero starts with `0`. */
  function FormatNat(n: nat): (s: string)
    ensures |s| > 0 && AllDigits(s)
    ensures s[0] == '0' <==> n == 0
    decreases n
  {
    if n < 10 then [DigitChar(n)] else FormatNat(n / 10) + [DigitChar(n % 10)]
  }

  /** `str(n)`: a minus sign exactly for negative numbers, never a plus sign,
      and no leading zero. */
  function FormatInt(n: int): (s: string)
    ensures |s| > 0 && s[0] != '+'
    ensures s[0] == '-' <==> n < 0
    ensures var digits := if n < 0 then s[1..] else s;
            |digits| > 0 && AllDigits(digits) && (digits[0] == '0' <==> n == 0)
  {
    if n < 0 then "-" + FormatNat(-n) else FormatNat(n)
  }

  lemma {:induction false} DigitsValueOfFormatNat(n: nat)
    ensures DigitsValue(FormatNat(n)) == n
    decreases n
  {
    if n >= 10 {
      var s := FormatNat(n);
      DigitsValueOfFormatNat(n / 10);
      assert s[..|s| - 1] == FormatNat(n / 10);
    }
  }

  /** Parsing undoes formatting: every integer written in decimal is read back
      as the same integer. */
  lemma ParseFormatRoundTrip(n: int)
    ensures ParseInt(FormatInt(n)) == Some(n)
  {
    if n < 0 {
      ParseNegativeRendering(n);
    } else {
      ParseNonNegativeRendering(n);
    }
  }

  /** The negative case of `ParseFormatRoundTrip`. */
  lemma ParseNegativeRendering(n: int)
    requires n < 0
    ensures ParseInt(FormatInt(n)) == Some(n)
  {
    var digits := FormatNat(-n);
    assert FormatInt(n) == "-" + digits;
    DigitsValueOfFormatNat(-n);
    assert ("-" + digits)[1..] == digits;
  }

  /** The non-negative case of `ParseFormatRoundTrip`. */
  lemma ParseNonNegativeRendering(n: int)
    requires n >= 0
    ensures ParseInt(FormatInt(n)) == Some(n)
  {
    assert FormatInt(n) == FormatNat(n);
    DigitsValueOfFormatNat(n);
  }

  /** A leading `0` does not change the value of a digit string. */
  lemma {:induction false} LeadingZeroIgnored(s: string)
    requires AllDigits(s)
    ensures AllDigits("0" + s) && DigitsValue("0" + s) == DigitsValue(s)
    decreases |s|
  {
    var z := "0" + s;
    assert AllDigits(z) by {
      forall i | 0 <= i < |z| ensures IsDigit(z[i]) {
        if i > 0 {
          assert z[i] == s[i - 1];
        }
      }
    }
    if |s| > 0 {
      LeadingZeroIgnored(s[..|s| - 1]);
      assert z[..|z| - 1] == "0" + s[..|s| - 1];
    }
  }

  /** The digits `int` reads once leading zeros are dropped; a string of zeros
      keeps one. */
  function StripZeros(d: string): (t: string)
    requires |d| > 0
    ensures 0 < |t| <= |d| && t == d[|d| - |t|..]
    ensures t[0] == '0' ==> t == "0" || t == d
    ensures |t| < |d| ==> d[0] == '0'
    decreases |d|
  {
    if |d| > 1 && d[0] == '0' then StripZeros(d[1..]) else d
  }

  /** A digit string without a leading zero is the shortest rendering of its value. */
  lemma {:induction false} CanonicalDigits(s: string)
    requires |s| > 0 && AllDigits(s) && s[0] != '0'
    ensures FormatNat(DigitsValue(s)) == s
    decreases |s|
  {
    var d := s[|s| - 1];
    if |s| == 1 {
      assert DigitsValue(s) == DigitValue(d) by {
        assert s[..0] == [];
      }
      assert [DigitChar(DigitValue(d))] == s;
    } else {
      var p := s[..|s| - 1];
      CanonicalDigits(p);
      var v := DigitsValue(s);
      assert v == 10 * DigitsValue(p) + DigitValue(d);
      assert DigitsValue(p) != 0;
      assert v / 10 == DigitsValue(p) && v % 10 == DigitValue(d);
      assert DigitChar(DigitValue(d)) == d;
      assert s == p + [d];
    }
  }

  /** The value of any digit string is rendered back without its leading zeros. */
  lemma {:induction false} FormatDigitsValue(d: string)
    requires |d| > 0 && AllDigits(d)
    ensures FormatNat(DigitsValue(d)) == StripZeros(d)
    decreases |d|
  {
    if |d| > 1 && d[0] == '0' {
      DropLeadingZero(d);
      FormatDigitsValue(d[1..]);
    } else if d[0] != '0' {
      CanonicalDigits(d);
    } else {
      assert d == "0";
      assert DigitsValue(d) == 0 by {
        assert d[..0] == [];
      }
    }
  }

  /** Dropping one leading zero keeps both the value and the stripped digits. */
  lemma DropLeadingZero(d: string)
    requires |d| > 1 && d[0] == '0' && AllDigits(d)
    ensures AllDigits(d[1..])
    ensures DigitsValue(d[1..]) == DigitsValue(d)
    ensures StripZeros(d[1..]) == StripZeros(d)
  {
    var rest := d[1..];
    assert AllDigits(rest) by {
      forall i | 0 <= i < |rest| ensures IsDigit(rest[i]) {
        assert rest[i] == d[i + 1];
      }
    }
    LeadingZeroIgnored(rest);
    assert d == "0" + rest;
  }

  /** The text `str` would print for the integer a literal denotes: the sign
      kept only when the number is negative, leading zeros dropped, and `-0`
      written `0`. An independent, purely textual account of the value. */
  function CanonicalLiteral(s: string): (t: string)
    requires IsIntLiteral(s)
  {
    if s[0] == '-' then
      var digits := StripZeros(s[1..]);
      if digits[0] == '0' then digits else "-" + digits
    else if s[0] == '+' then StripZeros(s[1..])
    else StripZeros(s)
  }

  /** The value `int(text)` gives is the integer whose decimal rendering is the
      literal's canonical form, so `int("050") == 50`, `int("+5") == 5` and
      `int("-0") == 0`. With `ParseFormatRoundTrip` this fixes the value of
      every accepted literal. */
  lemma {:induction false} ParseIntValue(s: string)
    ensures ParseInt(s).Some? ==> FormatInt(ParseInt(s).value) == CanonicalLiteral(s)
  {
    if IsIntLiteral(s) {
      if s[0] == '-' {
        var digits := s[1..];
        assert ParseInt(s) == Some(-(DigitsValue(digits) as int));
        NegativeLiteralValue(digits);
        assert CanonicalLiteral(s) == var t := StripZeros(digits); if t[0] == '0' then t else "-" + t;
      } else if s[0] == '+' {
        FormatDigitsValue(s[1..]);
        assert ParseInt(s) == Some(DigitsValue(s[1..]) as int);
      } else {
        FormatDigitsValue(s);
        assert ParseInt(s) == Some(DigitsValue(s) as int);
      }
    }
  }

  /** The `-` case of `ParseIntValue`. */
  lemma NegativeLiteralValue(digits: string)
    requires |digits| > 0 && AllDigits(digits)
    ensures var t := StripZeros(digits);
            FormatInt(-(DigitsValue(digits) as int)) == if t[0] == '0' then t else "-" + t
  {
    FormatDigitsValue(digits);
    NegatedRendering(DigitsValue(digits), StripZeros(digits));
  }

  /** `str(-v)` from the digits `t` of `v`: `t` again for zero, `t` behind a
      minus sign otherwise. */
  lemma NegatedRendering(v: nat, t: string)
    requires FormatNat(v) == t
    ensures FormatInt(-(v as int)) == if t[0] == '0' then t else "-" + t
  {
    var n: int := -(v as int);
    if v == 0 {
      assert t[0] == '0';
      assert FormatInt(n) == t;
    } else {
      assert t[0] != '0';
      assert FormatInt(n) == "-" + t;
    }
  }

  /** Leading zeros, a plus sign and a negative zero, read as Python reads them. */
  lemma NonCanonicalLiterals()
    ensures ParseInt("050") == Some(50)
    ensures ParseInt("+5") == Some(5)
    ensures ParseInt("-0") == Some(0)
  {
    assert "050"[..2] == "05" && "05"[..1] == "0" && "0"[..0] == [];
    assert "+5"[1..] == "5" && "5"[..0] == [];
    assert "-0"[1..] == "0";
  }
}

=== FILE: lookups.dfy ===
/** The fixed translation tables of the fire+ protocol: the LED status token to
    the operation status, the numeric error code to the error, and, per protocol
    version, the burn-rate level to the ("Betrieb", "Leistung") pair the controller
    stores, with the inverse table derived by flipping the forward one. */
module Lookups {
  import opened Tables

  /** Operation status of the combustion controller (`FireplusOperationStatus`). */
  datatype OperationStatus =
    | Unknown
    | Standby
    | Regular
    | Heating
    | WoodRequired
    | WoodUrgentlyRequired
    | EmberPreservation
    | EmberBurndown
    | Error

  const OperationStatusLookup: map<string, OperationStatus> := map[
    "aus" := Standby,
    "Gruen" := Regular,
    "Gruen blinkt" := Heating,
    "Gelb" := WoodRequired,
    "Gelb blinkt" := WoodUrgentlyRequired,
    "Violett dunkel" := EmberPreservation,
    "Orange" := EmberBurndown,
    "Rot blinkt" := Error
  ]

  /** The LED token the controller reports for each known status: the inverse
      of the status table, which maps that token back to the status. */
  function LedToken(status: OperationStatus): (token: string)
    requires status != Unknown
    ensures token in OperationStatusLookup && OperationStatusLookup[token] == status
  {
    match status
    case Standby => "aus"
    case Regular => "Gruen"
    case Heating => "Gruen blinkt"
    case WoodRequired => "Gelb"
    case WoodUrgentlyRequired => "Gelb blinkt"
    case EmberPreservation => "Violett dunkel"
    case EmberBurndown => "Orange"
    case Error => "Rot blinkt"
  }

  /** `_get_operation_status`: total, with `Unknown` for any unlisted token.
      Only the blinking-red token means an error, and a known status always
      comes from the token that names it. */
  function OperationStatusOf(ledStatus: string): (status: OperationStatus)
    ensures status == Error <==> ledStatus == "Rot blinkt"
    ensures status != Unknown ==> LedToken(status) == ledStatus
  {
    if ledStatus in OperationStatusLookup then OperationStatusLookup[ledStatus] else Unknown
  }

  /** A token decodes to `Unknown` exactly when it is none of the eight known tokens. */
  lemma UnknownLedStatus(ledStatus: string)
    ensures OperationStatusOf(ledStatus) == Unknown <==>
            forall status :: status != Unknown ==> LedToken(status) != ledStatus
  {
    var status := OperationStatusOf(ledStatus);
    if status != Unknown {
      assert LedToken(status) == ledStatus;
    } else {
      forall s | s != Unknown
        ensures LedToken(s) != ledStatus
      {
        assert OperationStatusOf(LedToken(s)) == s;
      }
    }
  }

  /** Errors of the combustion controller (`FireplusError`); `NoError` is `NONE`. */
  datatype FireplusError =
    | NoError
    | TemperatureSensorDefective
    | PressureMeasurementDefective
    | AirSliderDefective
    | ServiceModeEnabled
    | ChimneyDraughtTooLow
    | AirSliderStuck
    | NoChimneyDraught
    | WrongMotorDirection
    | UnknownError

  const ErrorLookup: map<int, FireplusError> := map[
    0 := NoError,
    1 := TemperatureSensorDefective,
    2 := PressureMeasurementDefective,
    3 := AirSliderDefective,
    4 := ServiceModeEnabled,
    5 := ChimneyDraughtTooLow,
    6 := AirSliderStuck,
    7 := TemperatureSensorDefective,
    8 := TemperatureSensorDefective,
    9 := NoChimneyDraught,
    10 := WrongMotorDirection
  ]

  /** The codes the controller uses for each known error: the error lookup
      returns that error for exactly these codes. */
  function ErrorCodes(error: FireplusError): (codes: set<int>)
    requires error != UnknownError
    ensures forall code :: code in codes <==> ErrorOf(code) == error
  {
    match error
    case NoError => {0}
    case TemperatureSensorDefective => {1, 7, 8}
    case PressureMeasurementDefective => {2}
    case AirSliderDefective => {3}
    case ServiceModeEnabled => {4}
    case ChimneyDraughtTooLow => {5}
    case AirSliderStuck => {6}
    case NoChimneyDraught => {9}
    case WrongMotorDirection => {10}
  }

  /** `_get_error`: total, with `UnknownError` for any code outside 0..10. */
  function ErrorOf(code: int): (error: FireplusError)
    ensures error == NoError <==> code == 0
    ensures error == TemperatureSensorDefective <==> code == 1 || code == 7 || code == 8
    ensures error == UnknownError <==> code < 0 || code > 10
  {
    if code in ErrorLookup then ErrorLookup[code] else UnknownError
  }

  /** A burn-rate encoding: the values of the "Betrieb" and "Leistung" fields. */
  type BurnRatePair = (int, int)

  /** `_BURN_RATE_LOOKUP_V1`, in the literal's order. */
  const BurnRateEntriesV1: seq<(int, BurnRatePair)> :=
    [(1, (1, 4)), (2, (2, 4)), (3, (3, 4)), (4, (4, 4)), (5, (2, 8)), (6, (3, 8)), (7, (4, 8))]

  /** `_BURN_RATE_LOOKUP_V2`, in the literal's order. */
  const BurnRateEntriesV2: seq<(int, BurnRatePair)> :=
    [(1, (2, 4)), (2, (3, 4)), (3, (4, 4)), (4, (2, 8)), (5, (3, 8)), (6, (4, 8))]

  const BurnRateLookupV1: map<int, BurnRatePair> := ToMap(BurnRateEntriesV1)
  const BurnRateLookupV2: map<int, BurnRatePair> := ToMap(BurnRateEntriesV2)

  /** `_DERIVED_BURN_RATE_LOOKUP_V1` and `_V2`: the forward tables flipped. */
  const DerivedBurnRateLookupV1: map<BurnRatePair, int> := ToMap(Flip(BurnRateEntriesV1))
  const DerivedBurnRateLookupV2: map<BurnRatePair, int> := ToMap(Flip(BurnRateEntriesV2))

  /** The highest burn-rate level of each version. */
  const MaxBurnRateV1 := 7
  const MaxBurnRateV2 := 6

  /** Both forward tables list each level once and each pair once, and their
      levels are exactly 1..max. */
  lemma BurnRateTablesWellFormed()
    ensures DistinctKeys(BurnRateEntriesV1) && DistinctKeys(Flip(BurnRateEntriesV1))
    ensures DistinctKeys(BurnRateEntriesV2) && DistinctKeys(Flip(BurnRateEntriesV2))
    ensures forall i :: 0 <= i < |BurnRateEntriesV1| ==> BurnRateEntriesV1[i].0 == i + 1
    ensures forall i :: 0 <= i < |BurnRateEntriesV2| ==> BurnRateEntriesV2[i].0 == i + 1
    ensures |BurnRateEntriesV1| == MaxBurnRateV1 && |BurnRateEntriesV2| == MaxBurnRateV2
  {
  }

  /** `_get_values_for_burn_rate_v1`: the table's pair for a level, (1, 4) for any other level. */
  function ValuesForBurnRateV1(burnRate: int): (values: BurnRatePair)
    ensures 1 <= burnRate <= MaxBurnRateV1 ==> values == BurnRateEntriesV1[burnRate - 1].1
    ensures !(1 <= burnRate <= MaxBurnRateV1) ==> values == (1, 4)
  {
    BurnRateTablesWellFormed();
    if burnRate in BurnRateLookupV1 then BurnRateLookupV1[burnRate] else (1, 4)
  }

  /** `_get_burn_rate_v1`: the level whose pair is `(betrieb, leistung)`, and level 1
      for a pair the table does not list. The result is always a level of the table. */
  function BurnRateV1(betrieb: int, leistung: int): (burnRate: int)
    ensures 1 <= burnRate <= MaxBurnRateV1
    ensures (exists level :: 1 <= level <= MaxBurnRateV1 && ValuesForBurnRateV1(level) == (betrieb, leistung))
            ==> ValuesForBurnRateV1(burnRate) == (betrieb, leistung)
    ensures (forall level :: 1 <= level <= MaxBurnRateV1 ==> ValuesForBurnRateV1(level) != (betrieb, leistung))
            ==> burnRate == 1
  {
    DerivedLookupV1Inverts();
    if (betrieb, leistung) in DerivedBurnRateLookupV1 then DerivedBurnRateLookupV1[(betrieb, leistung)] else 1
  }

  /** Every pair of the derived table maps to a level whose pair it is, and
      every level's pair is in the derived table. */
  lemma DerivedLookupV1Inverts()
    ensures forall p :: p in DerivedBurnRateLookupV1 ==>
              1 <= DerivedBurnRateLookupV1[p] <= MaxBurnRateV1 && ValuesForBurnRateV1(DerivedBurnRateLookupV1[p]) == p
    ensures forall level :: 1 <= level <= MaxBurnRateV1 ==> ValuesForBurnRateV1(level) in DerivedBurnRateLookupV1
  {
    BurnRateTablesWellFormed();
    FlipInverts(BurnRateEntriesV1);
    forall p | p in DerivedBurnRateLookupV1
      ensures 1 <= DerivedBurnRateLookupV1[p] <= MaxBurnRateV1 && ValuesForBurnRateV1(DerivedBurnRateLookupV1[p]) == p
    {
      var level := DerivedBurnRateLookupV1[p];
      assert level in BurnRateLookupV1;
      var i :| 0 <= i < |BurnRateEntriesV1| && BurnRateEntriesV1[i].0 == level;
    }
    forall level | 1 <= level <= MaxBurnRateV1
      ensures ValuesForBurnRateV1(level) in DerivedBurnRateLookupV1
    {
      assert BurnRateEntriesV1[level - 1].0 == level;
      assert level in BurnRateLookupV1;
    }
  }

  /** Encoding a level of the table and decoding the pair gives the level back. */
  lemma BurnRateRoundTripV1(level: int)
    requires 1 <= level <= MaxBurnRateV1
    ensures BurnRateV1(ValuesForBurnRateV1(level).0, ValuesForBurnRateV1(level).1) == level
  {
    BurnRateTablesWellFormed();
    FlipInverts(BurnRateEntriesV1);
    assert BurnRateEntriesV1[level - 1].0 == level;
  }

  /** Decoding a pair and encoding the level reproduces the pair exactly when the
      pair is one of the table's; any other pair comes back as level 1's pair. */
  lemma PairRoundTripV1(betrieb: int, leistung: int)
    ensures ValuesForBurnRateV1(BurnRateV1(betrieb, leistung)) == (betrieb, leistung) <==>
            exists level :: 1 <= level <= MaxBurnRateV1 && ValuesForBurnRateV1(level) == (betrieb, leistung)
    ensures ValuesForBurnRateV1(BurnRateV1(betrieb, leistung)) == ValuesForBurnRateV1(1) ||
            ValuesForBurnRateV1(BurnRateV1(betrieb, leistung)) == (betrieb, leistung)
  {
  }

  /** `_get_values_for_burn_rate_v2`: the table's pair for a level, (2, 4) for any other level. */
  function ValuesForBurnRateV2(burnRate: int): (values: BurnRatePair)
    ensures 1 <= burnRate <= MaxBurnRateV2 ==> values == BurnRateEntriesV2[burnRate - 1].1
    ensures !(1 <= burnRate <= MaxBurnRateV2) ==> values == (2, 4)
  {
    BurnRateTablesWellFormed();
    if burnRate in BurnRateLookupV2 then BurnRateLookupV2[burnRate] else (2, 4)
  }

  /** `_get_burn_rate_v2`: the level whose pair is `(betrieb, leistung)`, and level 1
      for a pair the table does not list. The result is always a level of the table. */
  function BurnRateV2(betrieb: int, leistung: int): (burnRate: int)
    ensures 1 <= burnRate <= MaxBurnRateV2
    ensures (exists level :: 1 <= level <= MaxBurnRateV2 && ValuesForBurnRateV2(level) == (betrieb, leistung))
            ==> ValuesForBurnRateV2(burnRate) == (betrieb, leistung)
    ensures (forall level :: 1 <= level <= MaxBurnRateV2 ==> ValuesForBurnRateV2(level) != (betrieb, leistung))
            ==> burnRate == 1
  {
    DerivedLookupV2Inverts();
    if (betrieb, leistung) in DerivedBurnRateLookupV2 then DerivedBurnRateLookupV2[(betrieb, leistung)] else 1
  }

  /** Every pair of the derived table maps to a level whose pair it is, and
      every level's pair is in the derived table. */
  lemma DerivedLookupV2Inverts()
    ensures forall p :: p in DerivedBurnRateLookupV2 ==>
              1 <= DerivedBurnRateLookupV2[p] <= MaxBurnRateV2 && ValuesForBurnRateV2(DerivedBurnRateLookupV2[p]) == p
    ensures forall level :: 1 <= level <= MaxBurnRateV2 ==> ValuesForBurnRateV2(level) in DerivedBurnRateLookupV2
  {
    BurnRateTablesWellFormed();
    FlipInverts(BurnRateEntriesV2);
    forall p | p in DerivedBurnRateLookupV2
      ensures 1 <= DerivedBurnRateLookupV2[p] <= MaxBurnRateV2 && ValuesForBurnRateV2(DerivedBurnRateLookupV2[p]) == p
    {
      var level := DerivedBurnRateLookupV2[p];
      assert level in BurnRateLookupV2;
      var i :| 0 <= i < |BurnRateEntriesV2| && BurnRateEntriesV2[i].0 == level;
    }
    forall level | 1 <= level <= MaxBurnRateV2
      ensures ValuesForBurnRateV2(level) in DerivedBurnRateLookupV2
    {
      assert BurnRateEntriesV2[level - 1].0 == level;
      assert level in BurnRateLookupV2;
    }
  }

  /** Encoding a level of the table and decoding the pair gives the level back. */
  lemma BurnRateRoundTripV2(level: int)
    requires 1 <= level <= MaxBurnRateV2
    ensures BurnRateV2(ValuesForBurnRateV2(level).0, ValuesForBurnRateV2(level).1) == level
  {
    BurnRateTablesWellFormed();
    FlipInverts(BurnRateEntriesV2);
    assert BurnRateEntriesV2[level - 1].0 == level;
  }

  /** Decoding a pair and encoding the level reproduces the pair exactly when the
      pair is one of the table's; any other pair comes back as level 1's pair. */
  lemma PairRoundTripV2(betrieb: int, leistung: int)
    ensures ValuesForBurnRateV2(BurnRateV2(betrieb, leistung)) == (betrieb, leistung) <==>
            exists level :: 1 <= level <= MaxBurnRateV2 && ValuesForBurnRateV2(level) == (betrieb, leistung)
    ensures ValuesForBurnRateV2(BurnRateV2(betrieb, leistung)) == ValuesForBurnRateV2(1) ||
            ValuesForBurnRateV2(BurnRateV2(betrieb, leistung)) == (betrieb, leistung)
  {
  }

  /** An unknown level is encoded as level 1's pair in both versions, so the
      fallbacks of encoding and decoding agree. */
  lemma BurnRateFallbacksAgree(burnRate: int)
    ensures !(1 <= burnRate <= MaxBurnRateV1) ==> ValuesForBurnRateV1(burnRate) == ValuesForBurnRateV1(1)
    ensures !(1 <= burnRate <= MaxBurnRateV2) ==> ValuesForBurnRateV2(burnRate) == ValuesForBurnRateV2(1)
  {
  }
}

=== FILE: response.dfy ===
/** `FireplusResponse`: decoding the panel and configuration payloads of a fire+
    controller into one immutable snapshot. Each payload loses its two leading
    characters and its last one, the rest is cut at the two-character escape
    backslash-`n`, and typed readings are taken from fixed positions that depend
    on the protocol version announced by the configuration payload. Any missing
    position or unreadable integer makes the whole decode fail with
    `InvalidResponseError`; a zero progress denominator escapes as Python's
    `ZeroDivisionError`, which the decoder's `except` clause does not catch. */
module Response {
  import opened Wrappers
  import opened Strings
  import opened Integers
  import opened Lookups

  /** The field separator: a backslash followed by `n`, two characters, not a newline. */
  const FieldSeparator: string := ['\\', 'n']

  /** The separator between the major version and the rest of the version token. */
  const VersionSeparator: string := "."

  /** What escapes the decoder instead of a snapshot. */
  datatype DecodeError =
    | InvalidResponseError   // `FireplusApiClientInvalidResponseError`, raised for IndexError and ValueError
    | ZeroDivisionError      // raised by the progress division and not caught

  /** `heating_progress` as the fraction `current / total` it is computed from. */
  datatype Progress = Progress(current: int, total: int)

  /** The percentage Python computes as `current / total * 100`, exact rather than
      rounded to a float. */
  function Percent(p: Progress): (percent: real)
    requires p.total != 0
    ensures percent * p.total as real == p.current as real * 100.0
  {
    p.current as real / p.total as real * 100.0
  }

  /** The readings of one successful poll. */
  datatype Snapshot = Snapshot(
    version: int,
    webControlsShown: bool,
    brightness: int,
    temperature: int,
    airSlider: real,
    chimneyDraught: real,
    operationStatus: OperationStatus,
    error: FireplusError,
    errorCode: int,
    maxTemperature: int,
    serialNumber: string,
    chimneyDraughtAvailable: bool,
    volume: Option<int>,
    emberBurndown: bool,
    count: Option<int>,
    led: Option<bool>,
    burnRate: int,
    operatingTime: Option<int>,
    heatingProgress: Progress)
  {
    /** Version 1 snapshots carry `led` and nothing of `volume`, `count` and
        `operating_time`; every other version carries the reverse. */
    predicate VersionConsistent()
    {
      && (led.Some? <==> version == 1)
      && (volume.Some? <==> version != 1)
      && (count.Some? <==> version != 1)
      && (operatingTime.Some? <==> version != 1)
    }

    /** The burn rate is one of the version's table levels. */
    predicate BurnRateInRange()
    {
      if version == 1 then 1 <= burnRate <= MaxBurnRateV1 else 1 <= burnRate <= MaxBurnRateV2
    }
  }

  /** The fields set by `__init_version1` or `__init_version2`. */
  datatype VersionFields = VersionFields(
    volume: Option<int>,
    emberBurndown: bool,
    count: Option<int>,
    led: Option<bool>,
    burnRate: int,
    operatingTime: Option<int>,
    heatingProgress: Progress)

  /** `payload[2:-1]`: the payload without its two-character prefix and its final
      character, empty when the payload is shorter than three characters. */
  function Body(payload: string): (body: string)
    ensures |payload| >= 3 ==> body == payload[2..|payload| - 1]
    ensures |payload| < 3 ==> body == ""
  {
    Slice(payload, 2, -1)
  }

  /** `payload[2:-1].split("\\n")`. */
  function Fields(payload: string): (fields: seq<string>)
    ensures |fields| >= 1
    ensures Join(fields, FieldSeparator) == Body(payload)
    ensures forall i :: 0 <= i < |fields| ==> !Contains(fields[i], FieldSeparator)
  {
    Split(Body(payload), FieldSeparator)
  }

  /** Framing a field list and splitting it again gives the fields back. */
  lemma FieldsOfFramedPayload(prefix: string, fields: seq<string>, suffix: string)
    requires |prefix| == 2 && |suffix| == 1 && |fields| >= 1
    requires forall i :: 0 <= i < |fields| ==> !Contains(fields[i], FieldSeparator)
    ensures Fields(prefix + Join(fields, FieldSeparator) + suffix) == fields
  {
    var body := Join(fields, FieldSeparator);
    FramedBody(prefix, body, suffix);
    assert Fields(prefix + body + suffix) == Split(body, FieldSeparator);
    FieldSeparatorBorderFree();
    SplitJoin(fields, FieldSeparator);
  }

  /** The body between a two-character prefix and a one-character suffix is
      exactly what was framed. */
  lemma FramedBody(prefix: string, body: string, suffix: string)
    requires |prefix| == 2 && |suffix| == 1
    ensures Body(prefix + body + suffix) == body
  {
    var payload := prefix + body + suffix;
    assert payload[2..|payload| - 1] == body;
  }

  /** No proper suffix of backslash-`n` is also a prefix of it. */
  lemma FieldSeparatorBorderFree()
    ensures |FieldSeparator| > 0 && BorderFree(FieldSeparator)
  {
    assert FieldSeparator[1..][0] == 'n' != '\\' == FieldSeparator[..1][0];
  }

  /** The text before the first `.` of the configuration's first field. */
  function VersionToken(first: string): (token: string)
    ensures !Contains(token, VersionSeparator)
    ensures token == first || (|token| < |first| && first[..|token| + 1] == token + VersionSeparator)
  {
    var parts := Split(first, VersionSeparator);
    assert |parts| > 1 ==> first[..|parts[0]| + 1] == parts[0] + VersionSeparator by {
      if |parts| > 1 {
        assert first == parts[0] + VersionSeparator + Join(parts[1..], VersionSeparator);
      }
    }
    parts[0]
  }

  /** `fields[i]`, failing the way an IndexError does. */
  function Field(fields: seq<string>, i: nat): (r: Result<string, DecodeError>)
    ensures r.Success? <==> i < |fields|
    ensures r.Success? ==> r.value == fields[i]
    ensures r.Failure? ==> r.error == InvalidResponseError
  {
    if i < |fields| then Success(fields[i]) else Failure(InvalidResponseError)
  }

  /** `int(fields[i])`. */
  function IntField(fields: seq<string>, i: nat): (r: Result<int, DecodeError>)
    ensures r.Success? <==> ReadsInt(fields, i)
    ensures r.Success? ==> r.value == IntAt(fields, i)
    ensures r.Failure? ==> r.error == InvalidResponseError
  {
    var text :- Field(fields, i);
    ParseInt(text).OrFail(InvalidResponseError)
  }

  /** `fields[i] == "1"`. */
  function FlagField(fields: seq<string>, i: nat): (r: Result<bool, DecodeError>)
    ensures r.Success? <==> i < |fields|
    ensures r.Success? ==> (r.value <==> fields[i] == "1")
    ensures r.Failure? ==> r.error == InvalidResponseError
  {
    var text :- Field(fields, i);
    Success(text == "1")
  }

  /** `float(fields[i])`, with Python's `float` given as `parseFloat`. */
  function FloatField(fields: seq<string>, i: nat, parseFloat: string -> Option<real>): (r: Result<real, DecodeError>)
    ensures r.Success? <==> i < |fields| && parseFloat(fields[i]).Some?
    ensures r.Success? ==> Some(r.value) == parseFloat(fields[i])
    ensures r.Failure? ==> r.error == InvalidResponseError
  {
    var text :- Field(fields, i);
    parseFloat(text).OrFail(InvalidResponseError)
  }

  /** `FireplusResponse(panel_response, configuration_response)`. */
  function Decode(panelResponse: string, configurationResponse: string, parseFloat: string -> Option<real>)
    : (r: Result<Snapshot, DecodeError>)
    ensures r.Success? ==> r.value.VersionConsistent()
    ensures r.Success? ==> r.value.BurnRateInRange()
    ensures r.Success? ==> r.value.heatingProgress.total != 0
    ensures r.Success? ==> r.value.error == ErrorOf(r.value.errorCode)
  {
    DecodeFields(Fields(panelResponse), Fields(configurationResponse), parseFloat)
  }

  /** The decoder once both payloads are split into fields: the version-independent
      readings first, then `__init_version1` for version 1 and `__init_version2`
      for every other version. */
  function DecodeFields(panel: seq<string>, configuration: seq<string>, parseFloat: string -> Option<real>)
    : (r: Result<Snapshot, DecodeError>)
    ensures r.Success? ==> r.value.VersionConsistent()
    ensures r.Success? ==> r.value.BurnRateInRange()
    ensures r.Success? ==> r.value.heatingProgress.total != 0
    ensures r.Success? ==> r.value.error == ErrorOf(r.value.errorCode)
  {
    var c :- DecodeCommon(panel, configuration, parseFloat);
    var v :- if c.version == 1 then DecodeVersion1(panel, configuration) else DecodeVersion2(panel, configuration);
    Success(Snapshot(
      c.version, c.webControlsShown, c.brightness, c.temperature, c.airSlider, c.chimneyDraught,
      c.operationStatus, c.error, c.errorCode, c.maxTemperature, c.serialNumber, c.chimneyDraughtAvailable,
      v.volume, v.emberBurndown, v.count, v.led, v.burnRate, v.operatingTime, v.heatingProgress))
  }

  /** The readings every version takes from the same positions. */
  datatype CommonFields = CommonFields(
    version: int,
    webControlsShown: bool,
    brightness: int,
    temperature: int,
    airSlider: real,
    chimneyDraught: real,
    operationStatus: OperationStatus,
    error: FireplusError,
    errorCode: int,
    maxTemperature: int,
    serialNumber: string,
    chimneyDraughtAvailable: bool)

  /** The version-independent part of `FireplusResponse.__init__`. */
  function DecodeCommon(panel: seq<string>, configuration: seq<string>, parseFloat: string -> Option<real>)
    : (r: Result<CommonFields, DecodeError>)
    ensures r.Failure? ==> r.error == InvalidResponseError
    ensures r.Success? ==> r.value.error == ErrorOf(r.value.errorCode)
  {
    var first :- Field(configuration, 0);
    var version :- ParseInt(VersionToken(first)).OrFail(InvalidResponseError);
    var webControlsShown :- FlagField(panel, 1);
    var brightness :- IntField(panel, 4);
    var temperature :- IntField(panel, 5);
    var airSlider :- FloatField(panel, 6, parseFloat);
    var chimneyDraught :- FloatField(panel, 7, parseFloat);
    var ledStatus :- Field(panel, 8);
    var errorCode :- IntField(panel, 9);
    var maxTemperature :- IntField(configuration, 1);
    var serialNumber :- Field(configuration, 3);
    var chimneyDraughtAvailable :- FlagField(configuration, 4);
    Success(CommonFields(
      version, webControlsShown, brightness, temperature, airSlider, chimneyDraught,
      OperationStatusOf(ledStatus), ErrorOf(errorCode), errorCode, maxTemperature,
      serialNumber, chimneyDraughtAvailable))
  }

  /** `__init_version1`. */
  function DecodeVersion1(panel: seq<string>, configuration: seq<string>): (r: Result<VersionFields, DecodeError>)
    ensures r.Success? ==> r.value.led.Some? && r.value.volume.None? && r.value.count.None? && r.value.operatingTime.None?
    ensures r.Success? ==> 1 <= r.value.burnRate <= MaxBurnRateV1 && r.value.heatingProgress.total != 0
  {
    var emberBurndown :- FlagField(panel, 11);
    // panel[11] exists, so panel[10] cannot raise IndexError
    var led := panel[10] == "1";
    var betrieb :- IntField(panel, 2);
    var leistung :- IntField(panel, 3);
    var current :- IntField(panel, 12);
    var total :- IntField(configuration, 6);
    if total == 0 then Failure(ZeroDivisionError)
    else Success(VersionFields(None, emberBurndown, None, Some(led), BurnRateV1(betrieb, leistung), None, Progress(current, total)))
  }

  /** `__init_version2`. */
  function DecodeVersion2(panel: seq<string>, configuration: seq<string>): (r: Result<VersionFields, DecodeError>)
    ensures r.Success? ==> r.value.led.None? && r.value.volume.Some? && r.value.count.Some? && r.value.operatingTime.Some?
    ensures r.Success? ==> 1 <= r.value.burnRate <= MaxBurnRateV2 && r.value.heatingProgress.total != 0
  {
    var volume :- IntField(panel, 12);
    // panel[12] exists, so panel[10] cannot raise IndexError
    var emberBurndown := panel[10] == "1";
    var count :- IntField(panel, 16);
    var betrieb :- IntField(panel, 2);
    var leistung :- IntField(panel, 3);
    var operatingTime :- IntField(configuration, 7);
    var current :- IntField(panel, 11);
    var total :- IntField(configuration, 6);
    if total == 0 then Failure(ZeroDivisionError)
    else Success(VersionFields(Some(volume), emberBurndown, Some(count), None, BurnRateV2(betrieb, leistung), Some(operatingTime), Progress(current, total)))
  }

  // ---------------------------------------------------------------------------
  // The decoding table, stated independently of the decoder's code.

  /** The announced protocol version, when the configuration has one. */
  function AnnouncedVersion(configuration: seq<string>): Option<int>
  {
    if |configuration| == 0 then None else ParseInt(VersionToken(configuration[0]))
  }

  /** Position `i` exists and holds an integer. */
  predicate ReadsInt(fields: seq<string>, i: nat)
  {
    i < |fields| && ParseInt(fields[i]).Some?
  }

  /** The integer at a position known to hold one. */
  function IntAt(fields: seq<string>, i: nat): int
    requires ReadsInt(fields, i)
  {
    ParseInt(fields[i]).value
  }

  /** How many panel fields each layout reads: up to index 12 in version 1, 16 otherwise. */
  function PanelFieldsNeeded(version: int): nat
  {
    if version == 1 then 13 else 17
  }

  /** How many configuration fields each layout reads: up to index 6 in version 1, 7 otherwise. */
  function ConfigurationFieldsNeeded(version: int): nat
  {
    if version == 1 then 7 else 8
  }

  /** Panel positions read as integers. */
  function PanelIntPositions(version: int): set<nat>
  {
    if version == 1 then {2, 3, 4, 5, 9, 12} else {2, 3, 4, 5, 9, 11, 12, 16}
  }

  /** Configuration positions read as integers. */
  function ConfigurationIntPositions(version: int): set<nat>
  {
    if version == 1 then {1, 6} else {1, 6, 7}
  }

  /** Both payloads hold every position the announced layout reads, with an
      integer wherever an integer is read and a float wherever a float is read. */
  predicate Decodable(panel: seq<string>, configuration: seq<string>, parseFloat: string -> Option<real>)
  {
    && AnnouncedVersion(configuration).Some?
    && var version := AnnouncedVersion(configuration).value;
    && |panel| >= PanelFieldsNeeded(version)
    && |configuration| >= ConfigurationFieldsNeeded(version)
    && (forall i :: i in PanelIntPositions(version) ==> ReadsInt(panel, i))
    && (forall i :: i in ConfigurationIntPositions(version) ==> ReadsInt(configuration, i))
    && parseFloat(panel[6]).Some?
    && parseFloat(panel[7]).Some?
  }

  /** What the version-independent part needs. */
  predicate CommonReadable(panel: seq<string>, configuration: seq<string>, parseFloat: string -> Option<real>)
  {
    && AnnouncedVersion(configuration).Some?
    && |panel| >= 10 && |configuration| >= 5
    && ReadsInt(panel, 4) && ReadsInt(panel, 5) && ReadsInt(panel, 9) && ReadsInt(configuration, 1)
    && parseFloat(panel[6]).Some? && parseFloat(panel[7]).Some?
  }

  /** What `__init_version1` needs. */
  predicate Version1Readable(panel: seq<string>, configuration: seq<string>)
  {
    && |panel| >= 13 && |configuration| >= 7
    && ReadsInt(panel, 2) && ReadsInt(panel, 3) && ReadsInt(panel, 12) && ReadsInt(configuration, 6)
  }

  /** What `__init_version2` needs. */
  predicate Version2Readable(panel: seq<string>, configuration: seq<string>)
  {
    && |panel| >= 17 && |configuration| >= 8
    && ReadsInt(panel, 2) && ReadsInt(panel, 3) && ReadsInt(panel, 11) && ReadsInt(panel, 12)
    && ReadsInt(panel, 16) && ReadsInt(configuration, 6) && ReadsInt(configuration, 7)
  }

  lemma DecodeCommonOutcome(panel: seq<string>, configuration: seq<string>, parseFloat: string -> Option<real>)
    ensures DecodeCommon(panel, configuration, parseFloat).Success? <==> CommonReadable(panel, configuration, parseFloat)
    ensures DecodeCommon(panel, configuration, parseFloat).Success? ==>
            DecodeCommon(panel, configuration, parseFloat).value.version == AnnouncedVersion(configuration).value
  {
  }

  lemma DecodeVersion1Outcome(panel: seq<string>, configuration: seq<string>)
    ensures DecodeVersion1(panel, configuration) == Failure(InvalidResponseError) <==> !Version1Readable(panel, configuration)
    ensures DecodeVersion1(panel, configuration) == Failure(ZeroDivisionError) <==>
            Version1Readable(panel, configuration) && IntAt(configuration, 6) == 0
  {
  }

  lemma DecodeVersion2Outcome(panel: seq<string>, configuration: seq<string>)
    ensures DecodeVersion2(panel, configuration) == Failure(InvalidResponseError) <==> !Version2Readable(panel, configuration)
    ensures DecodeVersion2(panel, configuration) == Failure(ZeroDivisionError) <==>
            Version2Readable(panel, configuration) && IntAt(configuration, 6) == 0
  {
  }

  /** The position table says the same as the per-part requirements. */
  lemma DecodableByParts(panel: seq<string>, configuration: seq<string>, parseFloat: string -> Option<real>)
    ensures Decodable(panel, configuration, parseFloat) <==>
            && CommonReadable(panel, configuration, parseFloat)
            && (if AnnouncedVersion(configuration).value == 1 then Version1Readable(panel, configuration)
                else Version2Readable(panel, configuration))
  {
    if Decodable(panel, configuration, parseFloat) {
      var version := AnnouncedVersion(configuration).value;
      assert 4 in PanelIntPositions(version) && 5 in PanelIntPositions(version) && 9 in PanelIntPositions(version);
      assert 2 in PanelIntPositions(version) && 3 in PanelIntPositions(version) && 12 in PanelIntPositions(version);
      assert 1 in ConfigurationIntPositions(version) && 6 in ConfigurationIntPositions(version);
      if version != 1 {
        assert 11 in PanelIntPositions(version) && 16 in PanelIntPositions(version);
        assert 7 in ConfigurationIntPositions(version);
      }
    }
  }

  /** Decoding is all-or-nothing: it fails with `InvalidResponseError` exactly
      when a position is missing or unreadable, raises `ZeroDivisionError`
      exactly when everything is readable but the progress denominator is zero,
      and succeeds otherwise. */
  lemma DecodeAllOrNothing(panel: seq<string>, configuration: seq<string>, parseFloat: string -> Option<real>)
    ensures DecodeFields(panel, configuration, parseFloat) == Failure(InvalidResponseError)
            <==> !Decodable(panel, configuration, parseFloat)
    ensures DecodeFields(panel, configuration, parseFloat) == Failure(ZeroDivisionError)
            <==> Decodable(panel, configuration, parseFloat) && IntAt(configuration, 6) == 0
    ensures DecodeFields(panel, configuration, parseFloat).Success?
            <==> Decodable(panel, configuration, parseFloat) && IntAt(configuration, 6) != 0
  {
    DecodeCommonOutcome(panel, configuration, parseFloat);
    DecodeVersion1Outcome(panel, configuration);
    DecodeVersion2Outcome(panel, configuration);
    DecodableByParts(panel, configuration, parseFloat);
  }

  /** Too few fields for the announced layout is an `InvalidResponseError`, never a
      partial snapshot: version 1 reads up to panel[12] and configuration[6],
      every other version up to panel[16] and configuration[7]. */
  lemma ShortPayloadIsInvalid(panel: seq<string>, configuration: seq<string>, parseFloat: string -> Option<real>)
    ensures |panel| <= 12 || |configuration| <= 6 ==>
            DecodeFields(panel, configuration, parseFloat) == Failure(InvalidResponseError)
    ensures AnnouncedVersion(configuration).Some? && AnnouncedVersion(configuration).value != 1 &&
            (|panel| <= 16 || |configuration| <= 7) ==>
            DecodeFields(panel, configuration, parseFloat) == Failure(InvalidResponseError)
  {
    DecodeAllOrNothing(panel, configuration, parseFloat);
  }

  /** The version-independent rows of the decoding table. */
  lemma DecodeCommonLayout(panel: seq<string>, configuration: seq<string>, parseFloat: string -> Option<real>)
    requires Decodable(panel, configuration, parseFloat) && IntAt(configuration, 6) != 0
    ensures DecodeFields(panel, configuration, parseFloat).Success?
    ensures var s := DecodeFields(panel, configuration, parseFloat).value;
            && s.version == AnnouncedVersion(configuration).value
            && s.webControlsShown == (panel[1] == "1")
            && s.brightness == IntAt(panel, 4)
            && s.temperature == IntAt(panel, 5)
            && s.airSlider == parseFloat(panel[6]).value
            && s.chimneyDraught == parseFloat(panel[7]).value
            && s.operationStatus == OperationStatusOf(panel[8])
            && s.errorCode == IntAt(panel, 9)
            && s.error == ErrorOf(IntAt(panel, 9))
            && s.maxTemperature == IntAt(configuration, 1)
            && s.serialNumber == configuration[3]
            && s.chimneyDraughtAvailable == (configuration[4] == "1")
  {
    DecodeAllOrNothing(panel, configuration, parseFloat);
    DecodeCommonOutcome(panel, configuration, parseFloat);
    DecodableByParts(panel, configuration, parseFloat);
  }

  /** The version-1 column of the decoding table: `led` from panel[10], no
      volume, count or operating time, ember burndown from panel[11], progress
      panel[12] over configuration[6], burn rate through the version-1 table. */
  lemma DecodeVersion1Layout(panel: seq<string>, configuration: seq<string>, parseFloat: string -> Option<real>)
    requires Decodable(panel, configuration, parseFloat) && IntAt(configuration, 6) != 0
    requires AnnouncedVersion(configuration) == Some(1)
    ensures DecodeFields(panel, configuration, parseFloat).Success?
    ensures var s := DecodeFields(panel, configuration, parseFloat).value;
            && s.led == Some(panel[10] == "1")
            && s.volume == None && s.count == None && s.operatingTime == None
            && s.emberBurndown == (panel[11] == "1")
            && s.heatingProgress == Progress(IntAt(panel, 12), IntAt(configuration, 6))
            && s.burnRate == BurnRateV1(IntAt(panel, 2), IntAt(panel, 3))
  {
    DecodeAllOrNothing(panel, configuration, parseFloat);
    DecodeCommonOutcome(panel, configuration, parseFloat);
    DecodableByParts(panel, configuration, parseFloat);
  }

  /** The column for every other version: volume from panel[12], count from
      panel[16], operating time from configuration[7], no `led`, ember burndown
      from panel[10], progress panel[11] over configuration[6], burn rate through
      the version-2 table. */
  lemma DecodeVersion2Layout(panel: seq<string>, configuration: seq<string>, parseFloat: string -> Option<real>)
    requires Decodable(panel, configuration, parseFloat) && IntAt(configuration, 6) != 0
    requires AnnouncedVersion(configuration).Some? && AnnouncedVersion(configuration).value != 1
    ensures DecodeFields(panel, configuration, parseFloat).Success?
    ensures var s := DecodeFields(panel, configuration, parseFloat).value;
            && s.led == None
            && s.volume == Some(IntAt(panel, 12))
            && s.count == Some(IntAt(panel, 16))
            && s.operatingTime == Some(IntAt(configuration, 7))
            && s.emberBurndown == (panel[10] == "1")
            && s.heatingProgress == Progress(IntAt(panel, 11), IntAt(configuration, 6))
            && s.burnRate == BurnRateV2(IntAt(panel, 2), IntAt(panel, 3))
  {
    DecodeAllOrNothing(panel, configuration, parseFloat);
    DecodeCommonOutcome(panel, configuration, parseFloat);
    DecodableByParts(panel, configuration, parseFloat);
  }

  const ExamplePanelV1: seq<string> := ["_", "1", "2", "4", "50", "20", "5.5", "3.0", "Gruen", "0", "1", "1", "80"]
  const ExampleConfigurationV1: seq<string> := ["1.0", "300", "_", "SER123", "1", "_", "100"]

  /** The snapshot a version-1 poll of the example fields yields. */
  const ExampleSnapshotV1 := Snapshot(
    1, true, 50, 20, 5.5, 3.0, Regular, NoError, 0, 300, "SER123", true,
    None, true, None, Some(true), 2, None, Progress(80, 100))

  /** The integer fields of the example, read digit by digit. */
  lemma ExampleIntegers()
    ensures ParseInt("0") == Some(0) && ParseInt("2") == Some(2) && ParseInt("4") == Some(4)
    ensures ParseInt("20") == Some(20) && ParseInt("50") == Some(50) && ParseInt("80") == Some(80)
    ensures ParseInt("100") == Some(100) && ParseInt("300") == Some(300)
  {
    assert "20"[..1] == "2" && "50"[..1] == "5" && "80"[..1] == "8";
    assert "100"[..2] == "10" && "10"[..1] == "1";
    assert "300"[..2] == "30" && "30"[..1] == "3";
  }

  /** The example's LED token is the one for regular operation. */
  lemma ExampleLedStatus()
    ensures OperationStatusOf("Gruen") == Regular
  {
  }

  /** The version token of the example's first configuration field. */
  lemma ExampleVersionToken()
    ensures VersionToken("1.0") == "1"
  {
    FreeOfFirstCharacter("1", VersionSeparator);
    FreeOfFirstCharacter("0", VersionSeparator);
    assert Join(["1", "0"], VersionSeparator) == "1.0";
    SplitJoin(["1", "0"], VersionSeparator);
  }

  /** The example configuration announces version 1. */
  lemma ExampleVersion()
    ensures AnnouncedVersion(ExampleConfigurationV1) == Some(1)
  {
    ExampleVersionToken();
    assert ExampleConfigurationV1[0] == "1.0";
    assert ParseInt("1") == Some(1) by {
      assert "1"[..0] == [];
    }
  }

  /** The example fields hold every reading the version-1 layout needs. */
  lemma ExampleDecodable(parseFloat: string -> Option<real>)
    requires parseFloat("5.5") == Some(5.5) && parseFloat("3.0") == Some(3.0)
    ensures Decodable(ExamplePanelV1, ExampleConfigurationV1, parseFloat)
    ensures IntAt(ExampleConfigurationV1, 6) == 100
  {
    var panel := ExamplePanelV1;
    var configuration := ExampleConfigurationV1;
    ExampleVersion();
    ExampleIntegers();
    assert ReadsInt(panel, 2) && ReadsInt(panel, 3) && ReadsInt(panel, 4);
    assert ReadsInt(panel, 5) && ReadsInt(panel, 9) && ReadsInt(panel, 12);
    assert ReadsInt(configuration, 1) && ReadsInt(configuration, 6);
    Version1Decodable(panel, configuration, parseFloat);
  }

  /** `Decodable` for version 1, position by position. */
  lemma Version1Decodable(panel: seq<string>, configuration: seq<string>, parseFloat: string -> Option<real>)
    requires AnnouncedVersion(configuration) == Some(1)
    requires |panel| >= 13 && |configuration| >= 7
    requires ReadsInt(panel, 2) && ReadsInt(panel, 3) && ReadsInt(panel, 4)
    requires ReadsInt(panel, 5) && ReadsInt(panel, 9) && ReadsInt(panel, 12)
    requires ReadsInt(configuration, 1) && ReadsInt(configuration, 6)
    requires parseFloat(panel[6]).Some? && parseFloat(panel[7]).Some?
    ensures Decodable(panel, configuration, parseFloat)
  {
  }

  /** A version-1 field list decodes reading by reading as the version-1 layout says. */
  lemma ExampleVersion1Fields(parseFloat: string -> Option<real>)
    requires parseFloat("5.5") == Some(5.5) && parseFloat("3.0") == Some(3.0)
    ensures DecodeFields(ExamplePanelV1, ExampleConfigurationV1, parseFloat) == Success(ExampleSnapshotV1)
  {
    var panel := ExamplePanelV1;
    var configuration := ExampleConfigurationV1;
    ExampleDecodable(parseFloat);
    ExampleVersion();
    ExampleIntegers();
    DecodeCommonLayout(panel, configuration, parseFloat);
    DecodeVersion1Layout(panel, configuration, parseFloat);
    var s := DecodeFields(panel, configuration, parseFloat).value;
    assert s.version == 1 && s.webControlsShown && s.brightness == 50 && s.temperature == 20;
    assert s.airSlider == 5.5 && s.chimneyDraught == 3.0;
    ExampleLedStatus();
    assert s.operationStatus == Regular;
    assert s.errorCode == 0 && s.error == NoError;
    assert s.maxTemperature == 300 && s.serialNumber == "SER123" && s.chimneyDraughtAvailable;
    assert s.led == Some(true) && s.emberBurndown;
    assert s.burnRate == 2 by {
      BurnRateRoundTripV1(2);
    }
    assert s.heatingProgress == Progress(80, 100);
  }

  /** The same poll from the raw response texts, framed and escaped as the
      controller sends them. */
  lemma ExampleVersion1Poll(parseFloat: string -> Option<real>)
    requires parseFloat("5.5") == Some(5.5) && parseFloat("3.0") == Some(3.0)
    ensures Decode("a:" + Join(ExamplePanelV1, FieldSeparator) + ";",
                   "a:" + Join(ExampleConfigurationV1, FieldSeparator) + ";", parseFloat)
            == Success(ExampleSnapshotV1)
  {
    var panel := ExamplePanelV1;
    var configuration := ExampleConfigurationV1;
    forall i | 0 <= i < |panel| ensures !Contains(panel[i], FieldSeparator) {
      FreeOfFirstCharacter(panel[i], FieldSeparator);
    }
    forall i | 0 <= i < |configuration| ensures !Contains(configuration[i], FieldSeparator) {
      FreeOfFirstCharacter(configuration[i], FieldSeparator);
    }
    FieldsOfFramedPayload("a:", panel, ";");
    FieldsOfFramedPayload("a:", configuration, ";");
    ExampleVersion1Fields(parseFloat);
  }
}

=== FILE: settings.dfy ===
/** The form fields `FireplusApiClient.async_update_settings` posts to the
    controller's write endpoint. The caller names only the settings it changes;
    every other value is taken from a snapshot read just before, and the field
    set depends on that snapshot's protocol version. */
module Settings {
  import opened Wrappers
  import opened Integers
  import opened Lookups
  import opened Response

  /** The keyword arguments of `async_update_settings`; `None` keeps the current value. */
  datatype SettingsUpdate = SettingsUpdate(
    brightness: Option<int>,
    volume: Option<int>,
    emberBurndown: Option<bool>,
    burnRate: Option<int>,
    led: Option<bool>)

  /** A call with no arguments. */
  const KeepAll := SettingsUpdate(None, None, None, None, None)

  /** Python's `int(b)` of a bool. */
  function IntOfBool(b: bool): (n: int)
    ensures 0 <= n <= 1
    ensures n == 1 <==> b
  {
    if b then 1 else 0
  }

  /** `(count + 1) % 100`. Python's `%` with a positive modulus never yields a
      negative number, and neither does Dafny's, so the two agree for every count.
      The new token always differs from the count read. */
  function NextCount(count: int): (next: int)
    ensures 0 <= next < 100
    ensures next != count
    ensures 0 <= count < 99 ==> next == count + 1
    ensures count == 99 ==> next == 0
  {
    (count + 1) % 100
  }

  const WriteKeysV1: set<string> := {"Betrieb", "Leistung", "Helligkeit", "Bedienung", "LED", "AB"}
  const WriteKeysV2: set<string> := {"Betrieb", "Leistung", "Helligkeit", "Bedienung", "AB", "Lautstaerke", "CNT"}

  /** The burn rate the update asks for, or the current one. */
  function RequestedBurnRate(current: Snapshot, update: SettingsUpdate): int
  {
    update.burnRate.OrElse(current.burnRate)
  }

  /** The `data` dictionary of `async_update_settings`, built from the snapshot
      the method re-reads first. */
  function SettingsFields(current: Snapshot, update: SettingsUpdate): (data: map<string, int>)
    requires current.VersionConsistent()
    ensures data.Keys == (if current.version == 1 then WriteKeysV1 else WriteKeysV2)
    ensures data["Helligkeit"] == update.brightness.OrElse(current.brightness)
    ensures data["Bedienung"] == IntOfBool(current.webControlsShown)
    ensures data["AB"] == IntOfBool(update.emberBurndown.OrElse(current.emberBurndown))
    ensures current.version == 1 ==> data["LED"] == IntOfBool(update.led.OrElse(current.led.value))
    ensures current.version != 1 ==> data["Lautstaerke"] == update.volume.OrElse(current.volume.value)
    ensures current.version != 1 ==> 0 <= data["CNT"] < 100 && data["CNT"] == NextCount(current.count.value)
    ensures (data["Betrieb"], data["Leistung"]) ==
            if current.version == 1 then ValuesForBurnRateV1(RequestedBurnRate(current, update))
            else ValuesForBurnRateV2(RequestedBurnRate(current, update))
  {
    if current.version == 1 then SettingsFieldsV1(current, update) else SettingsFieldsV2(current, update)
  }

  /** The version-1 branch: the LED flag and no volume or change token. */
  function SettingsFieldsV1(current: Snapshot, update: SettingsUpdate): (data: map<string, int>)
    requires current.version == 1 && current.led.Some?
    ensures data.Keys == WriteKeysV1
    ensures data["Helligkeit"] == update.brightness.OrElse(current.brightness)
    ensures data["Bedienung"] == IntOfBool(current.webControlsShown)
    ensures data["AB"] == IntOfBool(update.emberBurndown.OrElse(current.emberBurndown))
    ensures data["LED"] == IntOfBool(update.led.OrElse(current.led.value))
    ensures (data["Betrieb"], data["Leistung"]) == ValuesForBurnRateV1(RequestedBurnRate(current, update))
  {
    var values := ValuesForBurnRateV1(RequestedBurnRate(current, update));
    map[
      "Betrieb" := values.0,
      "Leistung" := values.1,
      "Helligkeit" := update.brightness.OrElse(current.brightness),
      "Bedienung" := IntOfBool(current.webControlsShown),
      "LED" := IntOfBool(update.led.OrElse(current.led.value)),
      "AB" := IntOfBool(update.emberBurndown.OrElse(current.emberBurndown))
    ]
  }

  /** The branch for every other version: volume and the change token, no LED flag. */
  function SettingsFieldsV2(current: Snapshot, update: SettingsUpdate): (data: map<string, int>)
    requires current.volume.Some? && current.count.Some?
    ensures data.Keys == WriteKeysV2
    ensures data["Helligkeit"] == update.brightness.OrElse(current.brightness)
    ensures data["Bedienung"] == IntOfBool(current.webControlsShown)
    ensures data["AB"] == IntOfBool(update.emberBurndown.OrElse(current.emberBurndown))
    ensures data["Lautstaerke"] == update.volume.OrElse(current.volume.value)
    ensures 0 <= data["CNT"] < 100 && data["CNT"] == NextCount(current.count.value)
    ensures (data["Betrieb"], data["Leistung"]) == ValuesForBurnRateV2(RequestedBurnRate(current, update))
  {
    var values := ValuesForBurnRateV2(RequestedBurnRate(current, update));
    map[
      "Betrieb" := values.0,
      "Leistung" := values.1,
      "Helligkeit" := update.brightness.OrElse(current.brightness),
      "Bedienung" := IntOfBool(current.webControlsShown),
      "AB" := IntOfBool(update.emberBurndown.OrElse(current.emberBurndown)),
      "Lautstaerke" := update.volume.OrElse(current.volume.value),
      "CNT" := NextCount(current.count.value)
    ]
  }

  /** The burn-rate pair that is posted reads back, through the same version's
      inverse table, as the requested level when that level is in the table, and
      as level 1 otherwise. */
  lemma WrittenBurnRateReadsBack(current: Snapshot, update: SettingsUpdate)
    requires current.VersionConsistent()
    ensures var data := SettingsFields(current, update);
            var level := RequestedBurnRate(current, update);
            if current.version == 1 then
              BurnRateV1(data["Betrieb"], data["Leistung"]) == (if 1 <= level <= MaxBurnRateV1 then level else 1)
            else
              BurnRateV2(data["Betrieb"], data["Leistung"]) == (if 1 <= level <= MaxBurnRateV2 then level else 1)
  {
    var level := RequestedBurnRate(current, update);
    if current.version == 1 {
      if 1 <= level <= MaxBurnRateV1 {
        BurnRateRoundTripV1(level);
      } else {
        BurnRateRoundTripV1(1);
      }
    } else {
      if 1 <= level <= MaxBurnRateV2 {
        BurnRateRoundTripV2(level);
      } else {
        BurnRateRoundTripV2(1);
      }
    }
  }

  /** A flag written as `int(b)` and echoed back as text reads as the same flag
      under the decoder's `== "1"` test. */
  lemma FlagRoundTrip(b: bool)
    ensures (FormatInt(IntOfBool(b)) == "1") == b
  {
    if !b {
      assert FormatInt(0) == "0";
    } else {
      assert FormatInt(1) == "1";
    }
  }

  /** An update with no arguments re-posts the snapshot: brightness, volume and
      the web-controls, ember-burndown and LED flags are the current ones, and the
      burn-rate pair reads back as the current burn rate. Only `CNT` moves on. */
  lemma KeepAllRewritesSnapshot(current: Snapshot)
    requires current.VersionConsistent() && current.BurnRateInRange()
    ensures var data := SettingsFields(current, KeepAll);
            && data["Helligkeit"] == current.brightness
            && (FormatInt(data["Bedienung"]) == "1") == current.webControlsShown
            && (FormatInt(data["AB"]) == "1") == current.emberBurndown
            && (current.version == 1 ==> Some(FormatInt(data["LED"]) == "1") == current.led)
            && (current.version != 1 ==> Some(data["Lautstaerke"]) == current.volume)
            && (current.version != 1 ==> Some(data["CNT"]) != current.count)
            && (if current.version == 1 then BurnRateV1(data["Betrieb"], data["Leistung"])
                else BurnRateV2(data["Betrieb"], data["Leistung"])) == current.burnRate
  {
    WrittenBurnRateReadsBack(current, KeepAll);
    FlagRoundTrip(current.webControlsShown);
    FlagRoundTrip(current.emberBurndown);
    if current.version == 1 {
      FlagRoundTrip(current.led.value);
    }
  }

  /** Version 1 ignores the `volume` argument and every other version ignores `led`. */
  lemma IgnoredArguments(current: Snapshot, update: SettingsUpdate, other: Option<bool>, otherVolume: Option<int>)
    requires current.VersionConsistent()
    ensures current.version == 1 ==>
            SettingsFields(current, update.(volume := otherVolume)) == SettingsFields(current, update)
    ensures current.version != 1 ==>
            SettingsFields(current, update.(led := other)) == SettingsFields(current, update)
  {
  }

  /** A snapshot fresh from the decoder can always be written back. */
  lemma DecodedSnapshotIsWritable(panelResponse: string, configurationResponse: string, parseFloat: string -> Option<real>)
    ensures var r := Decode(panelResponse, configurationResponse, parseFloat);
            r.Success? ==>
              && r.value.VersionConsistent()
              && SettingsFields(r.value, KeepAll).Keys == (if r.value.version == 1 then WriteKeysV1 else WriteKeysV2)
  {
  }
}

=== FILE: strings.dfy ===
/** The parts of Python's `str` that the payload decoder relies on: slicing with
    negative bounds, `find`, `split` on a non-empty separator and its inverse `join`. */
module Strings {
  import opened Wrappers

  /** Python's normalisation of one slice bound against a sequence of length `n`:
      a negative bound counts from the end, and the result is clamped to 0..n. */
  function SliceBound(i: int, n: nat): (b: nat)
    ensures b <= n
    ensures 0 <= i <= n ==> b == i
    ensures -(n as int) <= i < 0 ==> b as int == n as int + i
    ensures i > n ==> b == n
    ensures i < -(n as int) ==> b == 0
  {
    if i < 0 then (if i + n < 0 then 0 else i + n)
    else if i > n then n
    else i
  }

  /** `s[start:stop]` with Python's semantics: an empty slice when the bounds cross. */
  function Slice<T>(s: seq<T>, start: int, stop: int): (r: seq<T>)
    ensures |r| <= |s|
    ensures 0 <= start <= stop <= |s| ==> r == s[start..stop]
    ensures 0 <= start <= |s| && -(|s| as int) <= stop < 0 && start <= |s| + stop ==> r == s[start..|s| + stop]
    ensures 0 <= start && |s| + stop <= start ==> r == []
    ensures 0 <= stop <= start ==> r == []
    ensures -(|s| as int) <= start < 0 && |s| + start <= stop <= |s| ==> r == s[|s| + start..stop]
  {
    var lo := SliceBound(start, |s|);
    var hi := SliceBound(stop, |s|);
    if lo < hi then s[lo..hi] else []
  }

  /** `sep` occurs in `s` starting at index `j`. */
  predicate OccursAt(s: string, sep: string, j: int)
  {
    0 <= j && j + |sep| <= |s| && s[j..j + |sep|] == sep
  }

  /** `sep in s` for a non-empty `sep`. */
  predicate Contains(s: string, sep: string)
  {
    exists j | 0 <= j <= |s| :: OccursAt(s, sep, j)
  }

  /** `s.find(sep, from)`: the leftmost occurrence of `sep` at or after `from`. */
  function Find(s: string, sep: string, from: nat): (r: Option<nat>)
    requires |sep| > 0
    ensures r.Some? ==> from <= r.value && OccursAt(s, sep, r.value)
    ensures r.Some? ==> forall j :: from <= j < r.value ==> !OccursAt(s, sep, j)
    ensures r.None? ==> forall j :: from <= j ==> !OccursAt(s, sep, j)
    decreases |s| - from
  {
    if from + |sep| > |s| then None
    else if s[from..from + |sep|] == sep then Some(from)
    else Find(s, sep, from + 1)
  }

  /** `sep.join(parts)`. */
  function Join(parts: seq<string>, sep: string): string
    decreases |parts|
  {
    if |parts| == 0 then []
    else if |parts| == 1 then parts[0]
    else parts[0] + sep + Join(parts[1..], sep)
  }

  /** `s.split(sep)` for a non-empty separator: cut at every leftmost,
      non-overlapping occurrence. The result is never empty (`"".split(sep) == [""]`),
      it joins back to `s`, and no part contains the separator. */
  function Split(s: string, sep: string): (parts: seq<string>)
    requires |sep| > 0
    ensures |parts| >= 1
    ensures Join(parts, sep) == s
    ensures forall i :: 0 <= i < |parts| ==> !Contains(parts[i], sep)
    decreases |s|
  {
    match Find(s, sep, 0)
    case None => [s]
    case Some(i) =>
      PrefixBeforeFirstIsFree(s, sep, i);
      var rest := Split(s[i + |sep|..], sep);
      assert s == s[..i] + sep + s[i + |sep|..] by {
        assert s[i..i + |sep|] == sep;
        assert s == s[..i] + s[i..i + |sep|] + s[i + |sep|..];
      }
      assert ([s[..i]] + rest)[1..] == rest;
      [s[..i]] + rest
  }

  /** The text before the leftmost occurrence of a separator does not contain it. */
  lemma PrefixBeforeFirstIsFree(s: string, sep: string, i: nat)
    requires |sep| > 0 && OccursAt(s, sep, i)
    requires forall j :: 0 <= j < i ==> !OccursAt(s, sep, j)
    ensures !Contains(s[..i], sep)
  {
    forall j | 0 <= j <= i
      ensures !OccursAt(s[..i], sep, j)
    {
      if j + |sep| <= i {
        assert s[..i][j..j + |sep|] == s[j..j + |sep|];
        assert j < i && !OccursAt(s, sep, j);
      }
    }
  }

  /** No proper suffix of `sep` is also a prefix of it, so two occurrences of
      `sep` can never overlap. Both separators the decoder uses have this property. */
  predicate BorderFree(sep: string)
  {
    forall t :: 0 < t < |sep| ==> sep[t..] != sep[..|sep| - t]
  }

  /** For a border-free separator, splitting undoes joining parts that do not
      contain the separator: the other half of the split/join round trip. */
  lemma {:induction false} SplitJoin(parts: seq<string>, sep: string)
    requires |sep| > 0 && BorderFree(sep)
    requires |parts| >= 1
    requires forall i :: 0 <= i < |parts| ==> !Contains(parts[i], sep)
    ensures Split(Join(parts, sep), sep) == parts
    decreases |parts|
  {
    var s := Join(parts, sep);
    if |parts| == 1 {
      NotContainedNotFound(s, sep);
    } else {
      var p := parts[0];
      var rest := parts[1..];
      assert s == p + sep + Join(rest, sep);
      FirstSeparatorAfterPart(p, sep, Join(rest, sep));
      assert s[|p| + |sep|..] == Join(rest, sep);
      assert s[..|p|] == p;
      SplitJoin(rest, sep);
      assert parts == [p] + rest;
    }
  }

  /** In a string free of `sep`, `find` reports nothing. */
  lemma NotContainedNotFound(s: string, sep: string)
    requires |sep| > 0 && !Contains(s, sep)
    ensures Find(s, sep, 0).None?
  {
  }

  /** In `p + sep + tail` with `p` free of a border-free `sep`, the leftmost
      occurrence of `sep` is the one right after `p`. */
  lemma FirstSeparatorAfterPart(p: string, sep: string, tail: string)
    requires |sep| > 0 && BorderFree(sep) && !Contains(p, sep)
    ensures Find(p + sep + tail, sep, 0) == Some(|p|)
  {
    var s := p + sep + tail;
    assert s[|p|..|p| + |sep|] == sep;
    assert OccursAt(s, sep, |p|);
    forall j | 0 <= j < |p|
      ensures !OccursAt(s, sep, j)
    {
      if j + |sep| <= |p| {
        assert s[j..j + |sep|] == p[j..j + |sep|];
        assert !OccursAt(p, sep, j);
      } else if j + |sep| <= |s| {
        var t := |p| - j;
        assert s[j..j + |sep|][t..] == s[|p|..j + |sep|] == sep[..|sep| - t];
        assert sep[t..] != sep[..|sep| - t];
      }
    }
  }

  /** A string in which the separator's first character never appears does not contain it. */
  lemma FreeOfFirstCharacter(s: string, sep: string)
    requires |sep| > 0
    requires forall i :: 0 <= i < |s| ==> s[i] != sep[0]
    ensures !Contains(s, sep)
  {
    forall j | 0 <= j <= |s|
      ensures !OccursAt(s, sep, j)
    {
      if j + |sep| <= |s| {
        assert s[j..j + |sep|][0] == s[j];
      }
    }
  }
}

=== FILE: tables.dfy ===
/** Python dictionaries built from literals and comprehensions. A dictionary is
    modelled by the ordered list of its `(key, value)` entries; building the map
    lets a later entry overwrite an earlier one with the same key, exactly as a
    dict literal does. For a literal without repeated keys, flipping its entries
    gives the `{value: key for key, value in d.items()}` comprehension. */
module Tables {

  /** The dictionary the entries build, later entries winning. */
  function ToMap<K(==), V>(entries: seq<(K, V)>): (m: map<K, V>)
    ensures forall i :: 0 <= i < |entries| ==> entries[i].0 in m
    ensures forall k :: k in m ==> exists i :: 0 <= i < |entries| && entries[i].0 == k && m[k] == entries[i].1
    ensures forall i :: 0 <= i < |entries| && LastWithKey(entries, i) ==> m[entries[i].0] == entries[i].1
    decreases |entries|
  {
    if |entries| == 0 then map[]
    else
      var last := entries[|entries| - 1];
      var front := entries[..|entries| - 1];
      var m := ToMap(front);
      assert forall i :: 0 <= i < |front| ==> front[i] == entries[i];
      m[last.0 := last.1]
  }

  /** No entry after index `i` has the same key, so entry `i` survives. */
  predicate LastWithKey<K(==), V>(entries: seq<(K, V)>, i: int)
    requires 0 <= i < |entries|
  {
    forall j :: i < j < |entries| ==> entries[j].0 != entries[i].0
  }

  predicate DistinctKeys<K(==), V>(entries: seq<(K, V)>)
  {
    forall i, j :: 0 <= i < j < |entries| ==> entries[i].0 != entries[j].0
  }

  /** The entries of `{value: key for key, value in d.items()}`, when `d` is built
      from `entries` without repeated keys. */
  function Flip<K, V>(entries: seq<(K, V)>): (flipped: seq<(V, K)>)
    ensures |flipped| == |entries|
    ensures forall i :: 0 <= i < |entries| ==> flipped[i] == (entries[i].1, entries[i].0)
  {
    seq(|entries|, i requires 0 <= i < |entries| => (entries[i].1, entries[i].0))
  }

  /** When keys and values are both distinct, the flipped dictionary is the exact
      inverse of the original one, in both directions. */
  lemma FlipInverts<K, V>(entries: seq<(K, V)>)
    requires DistinctKeys(entries) && DistinctKeys(Flip(entries))
    ensures forall k :: k in ToMap(entries) ==>
              ToMap(entries)[k] in ToMap(Flip(entries)) && ToMap(Flip(entries))[ToMap(entries)[k]] == k
    ensures forall v :: v in ToMap(Flip(entries)) ==>
              ToMap(Flip(entries))[v] in ToMap(entries) && ToMap(entries)[ToMap(Flip(entries))[v]] == v
  {
    FlipInvertsForward(entries);
    FlipInvertsBackward(entries);
  }

  /** Looking a key's value up in the flipped dictionary gives the key back. */
  lemma FlipInvertsForward<K, V>(entries: seq<(K, V)>)
    requires DistinctKeys(Flip(entries))
    ensures forall k :: k in ToMap(entries) ==>
              ToMap(entries)[k] in ToMap(Flip(entries)) && ToMap(Flip(entries))[ToMap(entries)[k]] == k
  {
    var m := ToMap(entries);
    var flipped := Flip(entries);
    var inverse := ToMap(flipped);
    forall k | k in m
      ensures m[k] in inverse && inverse[m[k]] == k
    {
      var i :| 0 <= i < |entries| && entries[i].0 == k && m[k] == entries[i].1;
      assert flipped[i] == (entries[i].1, entries[i].0);
      assert LastWithKey(flipped, i);
    }
  }

  /** Looking a value's key up in the original dictionary gives the value back. */
  lemma FlipInvertsBackward<K, V>(entries: seq<(K, V)>)
    requires DistinctKeys(entries)
    ensures forall v :: v in ToMap(Flip(entries)) ==>
              ToMap(Flip(entries))[v] in ToMap(entries) && ToMap(entries)[ToMap(Flip(entries))[v]] == v
  {
    var m := ToMap(entries);
    var flipped := Flip(entries);
    var inverse := ToMap(flipped);
    forall v | v in inverse
      ensures inverse[v] in m && m[inverse[v]] == v
    {
      var i :| 0 <= i < |flipped| && flipped[i].0 == v && inverse[v] == flipped[i].1;
      assert LastWithKey(entries, i);
    }
  }
}

=== FILE: wrappers.dfy ===
/** Python's `None` and Python's exceptions, as values. A call that may raise
    returns a `Result`, whose failure value names the exception; `:-` passes it
    on the way an uncaught exception leaves a method. */
module Wrappers {

  /** An optional value of an attribute or a keyword argument. */
  datatype Option<+T> = None | Some(value: T) {

    /** `self if self is not None else fallback`. */
    function OrElse(fallback: T): T {
      if Some? then value else fallback
    }

    /** The value, or the exception `error` when there is none. */
    function OrFail<E>(error: E): Result<T, E> {
      if Some? then Success(value) else Failure(error)
    }
  }

  /** The value a call returns, or the exception it raises. */
  datatype Result<+R, +E> = Success(value: R) | Failure(error: E) {

    predicate IsFailure() {
      Failure?
    }

    function PropagateFailure<U>(): Result<U, E>
      requires Failure?
    {
      Failure(error)
    }

    function Extract(): R
      requires Success?
    {
      value
    }
  }
}
